=== FILE: README.md ===
# Generic repository and paginator: a Dafny model

This project models the data-access core of the Prisma / Kyon Dolphin
libraries:

- the CRUD repository `MinimalRepository` (save, update, delete, retrieve
  all, retrieve by key);
- the extended `Repository` (count, count with a predicate, exists, find
  all, find single, paged retrieval with and without a predicate);
- the `Paginator<T>` page view with its next/previous links.

The Entity Framework `DbContext`/`DbSet` these classes sit on is replaced by
an immutable store: a `seq<Entity<T>>` in store order whose primary keys are
unique (`Entities.UniqueIds`). Every mutating operation is a pure function
from the store, the entity and a `storeFault` flag to a `Mutation`, which
holds the reported `OperationResult` and the store afterwards. Each call
starts from a clean change tracker: nothing a previous call staged is
carried over. The flag stands for any exception the store raises for
reasons outside the model, such as a lost connection, a failing provider,
or a change an earlier failed call left staged. The faults that follow from
the store's contents are derived from the state instead:

- adding a key that is already stored violates the primary key;
- deleting a key that is not stored is a DELETE matching no row.

Queries are pure functions that return no store, so by construction they
leave the store unchanged.

Modules:

- `Wrappers`: `Option` and `Result`.
- `Common`: `OperationResult`, the C# `int` range and 32-bit wrap-around.
- `Entities`: `Key` (integer, string, or a key of any other type), `Entity<T>`, the store, and lookup by key.
- `Linq`: `Where`, `Count(predicate)`, `FirstOrDefault`, `Skip` and `Take` over sequences.
- `PersistenceStore`: add/modify/remove followed by a commit that reports the affected-row count, or a fault.
- `MinimalRepository`: the Prisma CRUD repository.
- `DolphinRepository`: the Kyon Dolphin copy, proved equal to it operation by operation.
- `Repository`: the extended queries and paging.
- `Decimal`: printing page numbers in decimal, and reading them back.
- `Paginator`: the page view, with the offset computed without overflow.
- `PaginatorInt32`: the page slice computed as the source writes it, in 32-bit arithmetic.
- `Scenarios`: the worked examples of the test suites.

A delete of a key that is not stored makes Entity Framework raise a
concurrency exception at the commit (MinimalRepository.cs:109-110). The
model treats it as a fault, so the call reports `Failed` and the store is
unchanged.

The source computes `totalPages` as `Math.Ceiling` of a `double` quotient.
The model uses integer ceiling division instead. For `int` operands the two
agree: the double rounding error near the quotient is smaller than
`1 / pageSize`, the smallest distance from a non-integral quotient to the
next integer.

## Model

| member | source | states |
|---|---|---|
| Entities.Find | Source/Prisma.Core/Repositories/MinimalRepository.cs:77 | lookup by key finds a row exactly when some stored row has that key, and what it finds is a stored row with that key |
| Entities.FindStored | Source/Prisma.Core/Models/Interfaces/IEntity.cs:17-23 | with unique identifiers, looking up a stored row's key returns that very row |
| PersistenceStore.AddAndCommit | Source/Prisma.Core/Repositories/MinimalRepository.cs:54-55 | an add commits exactly when the store is healthy and the key is new; a committed add affects one row, grows the store by one, makes the key find the added entity, and keeps keys unique |
| PersistenceStore.ModifyAndCommit | Source/Prisma.Core/Repositories/MinimalRepository.cs:81-84 | marking a present entity modified commits unless the store faults; a committed update affects one row, keeps the store size, makes the key find the incoming entity, and keeps keys unique |
| PersistenceStore.RemoveAndCommit | Source/Prisma.Core/Repositories/MinimalRepository.cs:109-110 | a remove commits exactly when the store is healthy and the key is stored; a committed delete affects one row, makes the key find nothing, and on a store with unique keys leaves one row fewer with keys still unique |
| PersistenceStore.RemoveKeyLength | Source/Prisma.Core/Repositories/MinimalRepository.cs:109-110 | removing a stored key from a store with unique keys removes exactly one row; an absent key removes none |
| MinimalRepository.Settle | Source/Prisma.Core/Repositories/MinimalRepository.cs:55-62 | the result is Success exactly when the commit succeeded with more than zero affected rows; a fault is caught, reported as Failed, and leaves the store as it was |
| MinimalRepository.AsKey | Source/Prisma.Core/Repositories/MinimalRepository.cs:147-154 | an argument denotes a key exactly when its runtime type is int or string |
| MinimalRepository.Save | Source/Prisma.Core/Repositories/MinimalRepository.cs:50-63 | Success exactly when the store is healthy and the key is new; then the store is the old one plus the entity; on Failed the store is unchanged; keys stay unique |
| MinimalRepository.Update | Source/Prisma.Core/Repositories/MinimalRepository.cs:73-95 | a missing key gives Failed with the store unchanged; a present key gives Success unless the store faults, with the same size and only the row with that key replaced by the incoming entity |
| MinimalRepository.Delete | Source/Prisma.Core/Repositories/MinimalRepository.cs:105-118 | Success exactly when the store is healthy and the key is stored; then no row with that key remains, one row fewer, all other rows kept; on Failed the store is unchanged |
| MinimalRepository.RetrieveAll | Source/Prisma.Core/Repositories/MinimalRepository.cs:127-130 | returns exactly the stored rows, position by position in store order |
| MinimalRepository.RetrieveById | Source/Prisma.Core/Repositories/MinimalRepository.cs:143-158 | an argument of any type other than int or string is an error, never an absent result; an int or string key finds a row exactly when one with that key is stored, and the row found has that key |
| MinimalRepository.SaveThenRetrieve | Tests/Repositories.Tests/MinimalRepositoryTest.cs:38-46 | saving a new key succeeds, and retrieving the key afterwards returns the saved entity when the key is an int or a string; for a key of any other type retrieval is an error, so the saved row can never be retrieved by key |
| MinimalRepository.UpdateThenRetrieve | Tests/Repositories.Tests/MinimalRepositoryTest.cs:69-86 | updating a stored key succeeds, and retrieving it afterwards returns the incoming entity's fields (an error for a key that is neither int nor string) |
| MinimalRepository.DeleteThenRetrieve | Tests/Repositories.Tests/MinimalRepositoryTest.cs:97-109 | deleting a stored key succeeds, and retrieving it afterwards finds nothing (an error for a key that is neither int nor string) |
| DolphinRepository.Save | Source/Kyon.Dolphin.Core/Repositories/MinimalRepository.cs:42-55 | the Kyon save gives the same result and store as the Prisma save on every store with unique keys |
| DolphinRepository.Update | Source/Kyon.Dolphin.Core/Repositories/MinimalRepository.cs:65-87 | the Kyon update gives the same result and store as the Prisma update on every store with unique keys |
| DolphinRepository.Delete | Source/Kyon.Dolphin.Core/Repositories/MinimalRepository.cs:97-110 | the Kyon delete gives the same result and store as the Prisma delete on every store with unique keys |
| DolphinRepository.RetrieveAll | Source/Kyon.Dolphin.Core/Repositories/MinimalRepository.cs:119-122 | the Kyon retrieve-all returns what the Prisma one returns |
| DolphinRepository.RetrieveById | Source/Kyon.Dolphin.Core/Repositories/MinimalRepository.cs:135-151 | the Kyon key dispatch returns the same row, absence or error as the Prisma one for every argument |
| Repository.Count | Source/Prisma.Core/Repositories/Repository.cs:33-37 | the count equals the number of rows retrieve-all returns, and is zero exactly on an empty store |
| Repository.CountWhere | Source/Prisma.Core/Repositories/Repository.cs:44-48 | the predicate count equals the number of rows find-all returns, and equals the store size when every row matches |
| Repository.Exists | Source/Prisma.Core/Repositories/Repository.cs:55-59 | true exactly when some stored row has the key |
| Repository.ExistsIffRetrievable | Source/Prisma.Core/Repositories/Repository.cs:55-59 | an int or string key exists exactly when retrieving it by key finds a row; a key of another type may exist, but retrieving it is always an error |
| Repository.FindAll | Source/Prisma.Core/Repositories/Repository.cs:66-69 | no more rows than are stored; every returned row matches and is stored, and every matching stored row is returned (with FindAllKeepsOrder: exactly the matches, in store order) |
| Repository.FindAllKeepsOrder | Source/Prisma.Core/Repositories/Repository.cs:66-69 | filtering keeps store order: the matches of a concatenation are the matches of each part, in order |
| Repository.FindSingle | Source/Prisma.Core/Repositories/Repository.cs:77-80 | the result is the head of find-all, or none when nothing matches; it is the first matching row in store order, and several matches are not an error |
| Repository.Paged | Source/Prisma.Core/Repositories/Repository.cs:89-98 | the page is the contiguous slice of the store from position (pageNumber-1)*pageSize, cut at pageSize rows or at the end of the store |
| Repository.PagedWhere | Source/Prisma.Core/Repositories/Repository.cs:107-117 | filtered paging is paging applied to the find-all result: filter first, then skip and take |
| Repository.PagedWhereAll | Tests/Repositories.Tests/RepositoryTest.cs:173-195 | with a predicate every stored row satisfies, filtered paging equals plain paging |
| Repository.PagedSlice | Source/Prisma.Core/Repositories/Repository.cs:89-98 | page n is the slice of the store between the start of page n and the start of page n+1, both cut at the end of the store |
| Repository.AdjacentPagesContiguous | Source/Prisma.Core/Repositories/Repository.cs:89-98 | page n followed by page n+1 is one contiguous slice of the store: no row is skipped or repeated between consecutive pages |
| Repository.PagedPastEnd | Source/Prisma.Core/Repositories/Repository.cs:89-98 | a page starting at or beyond the end of the store is empty |
| Repository.MutationsAdjustCount | Source/Prisma.Core/Repositories/MinimalRepository.cs:50-118 | a successful save adds one to the count, a successful delete removes one, an update and every failed call leave it unchanged |
| Linq.Skip | Source/Prisma.Core/Common/Paginator.cs:70 | Skip drops the first n elements; a count of zero or less drops nothing and a count past the end leaves nothing |
| Linq.Take | Source/Prisma.Core/Common/Paginator.cs:71 | Take keeps a prefix of min(n, length) elements, none for a count of zero or less |
| Decimal.NatToString | Source/Prisma.Core/Common/Paginator.cs:78 | a page number prints as a non-empty string of decimal digits without a leading zero |
| Decimal.ParseNatToString | Source/Prisma.Core/Common/Paginator.cs:85 | reading back a printed page number gives the number printed |
| Paginator.TotalPages | Source/Prisma.Core/Common/Paginator.cs:65 | the page count is the ceiling of count/pageSize: enough pages to hold every item, and one fewer would not be |
| Paginator.NextUrl | Source/Prisma.Core/Common/Paginator.cs:75-80 | the next link exists exactly when pageNumber < totalPages, and is then path + "?=" + the decimal of pageNumber+1 |
| Paginator.PreviousUrl | Source/Prisma.Core/Common/Paginator.cs:82-87 | the previous link exists exactly when pageNumber > 1, and is then path + "?page=" + the decimal of pageNumber-1 |
| Paginator.PageResults | Source/Prisma.Core/Common/Paginator.cs:70-72 | the results are the items from position (pageNumber-1)*pageSize, min(pageSize, max(0, count-(pageNumber-1)*pageSize)) of them |
| Paginator.MorePagesIffMoreItems | Source/Prisma.Core/Common/Paginator.cs:65-67 | pageNumber < totalPages exactly when items remain after the current page |
| Paginator.Paginate | Source/Prisma.Core/Common/Paginator.cs:60-73 | Count is the number of items and CurrentPage the page number; Next exists exactly when items remain after this page, Previous exactly on pages after the first, each with its literal format; Results is the page slice |
| Paginator.ResultsEmptyPastLastPage | Source/Prisma.Core/Common/Paginator.cs:65-72 | a page number beyond totalPages yields no results (offset computed without overflow) |
| Paginator.LinksLeadToRealPages | Source/Prisma.Core/Common/Paginator.cs:75-87 | the next link points at a page that has results, and, when the current page starts within the data, the previous link points at a full page |
| Paginator.LinksDistinguishPages | Source/Prisma.Core/Common/Paginator.cs:75-87 | two next links, or two previous links, built on different page numbers differ: a link determines the page it was built on |
| Paginator.LinksRoundTrip | Source/Prisma.Core/Common/Paginator.cs:75-87 | each link is the path, its query suffix, then digits that read back as the neighbouring page number |
| PaginatorInt32.ResultsAsWritten | Source/Prisma.Core/Common/Paginator.cs:70-72 | with the offset in 32-bit arithmetic, the results agree with the corrected slice whenever the offset does not overflow |
| PaginatorInt32.OverflowShowsFirstPage | Source/Prisma.Core/Common/Paginator.cs:70-72 | for 10 items, page 65537 of size 32768, the as-written slice is all 10 items while the corrected slice is empty |
| Scenarios.PagedSecondPageOfThree | Tests/Repositories.Tests/RepositoryTest.cs:150-195 | over 10 rows, page 2 of size 3 is rows 3..5, with and without a predicate every row satisfies |
| Scenarios.HundredItemsFirstPage | Tests/Common.Tests/PaginatorTest.cs:21-33 | 100 items, page 1 of size 10: count 100, 10 results, no previous link, next link path + "?=2" |
| Scenarios.RetrieveByIdRejectsOtherTypes | Tests/Repositories.Tests/MinimalRepositoryTest.cs:151-172 | an argument of unsupported type is an error, and an int key that is not stored is reported absent |

## Left out

- Entity Framework internals are not modelled. This covers the change-tracking states (`Detached`, `Modified`), the identity conflict when two instances share a key, and the async `Task` plumbing. Update and delete act on the row with the entity's key.
- A failed save, update or delete whose commit threw leaves its change staged in the shared context. The next commit on that context sends it again, so a later call can fail because of it or persist it. The model starts every call from a clean context; such a later failure is expressible only through `storeFault`.
- Store key generation for entities saved with a default key is not modelled: the model stores the key the entity carries.
- Store exceptions during save, update and delete are the `storeFault` parameter. The exception's type and message, which the source discards, are not modelled.
- Store exceptions during queries are not modelled. `RetrieveAllAsync`, `RetrieveByIdAsync` and every `Repository` query have no `try`/`catch`, so such an exception reaches the caller; in the model these queries always return a value.
- Repository.Count: returns an unbounded count, where `CountAsync()` returns a 32-bit `int` and raises an overflow exception beyond `int.MaxValue` rows.
- Repository.CountWhere: returns an unbounded count, where `CountAsync(predicate)` returns a 32-bit `int`, for the same reason.
- Row order: the model gives every query one store order and appends a saved row at the end. The source's queries carry no `OrderBy`, so the database provider decides the order, and separate page queries need not agree on it. `Repository.AdjacentPagesContiguous` and the "first in store order" of `Repository.FindSingle` hold for the model's single order only.
- Non-positive page numbers and page sizes are not modelled. Their meaning depends on LINQ/EF `Skip`/`Take` and on `double` division. `Repository.Paged`, `Repository.PagedWhere`, `Paginator.Paginate` and `Paginator.PageResults` require both to be at least 1.
- Repository.Paged: computes the offset without 32-bit overflow. How a database provider treats the wrapped negative offset of the source is store-dependent.
- Repository.PagedWhere: computes the offset without 32-bit overflow, for the same reason.
- Paginator.Paginate: `Count` is unbounded, where the source's `data.Count()` raises an overflow exception beyond `int.MaxValue` items. The results use the corrected offset (see Findings).
- Repository.Exists: takes a key of the entity's key type. An id whose runtime type differs from the entity's key type makes Entity Framework's `FindAsync` raise an exception, which is not modelled.
- MinimalRepository.RetrieveById: an int or string argument whose type differs from the entity's key type (a string-keyed or int-keyed entity, or one keyed by another type) finds nothing in the model, where Entity Framework's `FindAsync` raises an `ArgumentException`.
- The request path is a plain string. `HttpContext` and `PathString` are not modelled.
- The JWT service wiring, the file-upload service and its exceptions, the FluentValidation wrapper, the constructors' null-argument checks and the test scaffolding have no repository logic. They are not part of this model.
- The Kyon `IMinimalRepository` declares plain `Task` returns. This has no semantic content and is not modelled.

## Findings

| source | as written | input that shows it | evidently intended | confidence | as-written member | corrected member |
|---|---|---|---|---|---|---|
| Source/Prisma.Core/Common/Paginator.cs:70 | the offset `(pageNumber - 1) * pageSize` is evaluated in unchecked 32-bit `int` arithmetic, and `Skip` of a negative count skips nothing | 10 items, pageNumber 65537, pageSize 32768: the offset 2^31 wraps to -2^31, so Results holds all 10 items although the page lies far past the end | a page past the end has no results | medium (assumes the default unchecked arithmetic), not executed | PaginatorInt32.OverflowShowsFirstPage | Paginator.ResultsEmptyPastLastPage |

=== FILE: common.dfy ===
/** Operation outcomes and the 32-bit integer arithmetic of the source. */
module Common {

  /** The two-valued outcome of every mutating repository call. */
  datatype OperationResult = Success | Failed

  const Int32Min: int := -0x8000_0000
  const Int32Max: int := 0x7FFF_FFFF

  /** The values of a C# `int`. */
  type Int32 = x: int | Int32Min <= x <= Int32Max

  function Min(a: int, b: int): (m: int) { if a < b then a else b }
  function Max(a: int, b: int): (m: int) { if a < b then b else a }

  /** The outcome a repository reports for a commit that affected `rows`
      records: success exactly when at least one record was affected. */
  function FromAffected(rows: int): (r: OperationResult)
  {
    if rows > 0 then Success else Failed
  }

  /** Unchecked 32-bit two's-complement wrap-around, as C# evaluates `int`
      arithmetic outside a `checked` context. */
  function Wrap32(x: int): (r: Int32)
    ensures (r - x) % 0x1_0000_0000 == 0
    ensures Int32Min <= x <= Int32Max ==> r == x
  {
    (x - Int32Min) % 0x1_0000_0000 + Int32Min
  }
}

=== FILE: decimal.dfy ===
/** Decimal numerals: `int.ToString()` for the non-negative page numbers
    that appear in pagination links, and its inverse. */
module Decimal {

  /** The character of decimal digit `d`. */
  function DigitChar(d: nat): (c: char)
    requires d < 10
    ensures '0' <= c <= '9'
  {
    (48 + d) as char
  }

  /** The value of a decimal digit character. */
  function DigitValue(c: char): (d: nat)
    requires '0' <= c <= '9'
    ensures d < 10
  {
    c as int - 48
  }

  /** A (possibly empty) string of decimal digits. */
  predicate IsDigits(s: string)
  {
    forall i :: 0 <= i < |s| ==> '0' <= s[i] <= '9'
  }

  /** The shortest decimal numeral of `n`, as `int.ToString()` prints it. */
  function NatToString(n: nat): (r: string)
    ensures |r| >= 1 && IsDigits(r)
    ensures r[0] == '0' ==> n == 0
    decreases n
  {
    if n < 10 then [DigitChar(n)]
    else NatToString(n / 10) + [DigitChar(n % 10)]
  }

  /** The value of a string of decimal digits (the empty string reads 0). */
  function ParseDigits(s: string): (n: nat)
    requires IsDigits(s)
    decreases |s|
  {
    if |s| == 0 then 0
    else 10 * ParseDigits(s[..|s| - 1]) + DigitValue(s[|s| - 1])
  }

  /** Reading back a printed numeral gives the number printed. */
  lemma {:induction false} ParseNatToString(n: nat)
    ensures ParseDigits(NatToString(n)) == n
  {
    var s := NatToString(n);
    if n >= 10 {
      ParseNatToString(n / 10);
      assert s[..|s| - 1] == NatToString(n / 10);
    }
  }

  /** Distinct numbers print as distinct numerals. */
  lemma NatToStringInjective(a: nat, b: nat)
    requires NatToString(a) == NatToString(b)
    ensures a == b
  {
    ParseNatToString(a);
    ParseNatToString(b);
  }
}

=== FILE: dolphin_repository.dfy ===
/** The second copy of the CRUD repository (the Kyon Dolphin package). Its
    operations are written out from that copy's own code and proved to
    behave exactly as the Prisma repository's. */
module DolphinRepository {
  import opened Wrappers
  import opened Common
  import opened Entities
  import opened PersistenceStore
  import MinimalRepository

  /** `SaveAsync`: add, commit, success iff rows were affected; any fault
      is reported as failure. */
  function Save<T>(s: Store<T>, entity: Entity<T>, storeFault: bool): (m: MinimalRepository.Mutation<T>)
    requires UniqueIds(s)
    ensures m == MinimalRepository.Save(s, entity, storeFault)
  {
    match AddAndCommit(s, entity, storeFault)
    case Faulted => MinimalRepository.Mutation(Failed, s)
    case Committed(rows, after) =>
      MinimalRepository.Mutation(if rows > 0 then Success else Failed, after)
  }

  /** `UpdateAsync`: a missing key fails without a write; a present key is
      overwritten and committed. */
  function Update<T>(s: Store<T>, entity: Entity<T>, storeFault: bool): (m: MinimalRepository.Mutation<T>)
    requires UniqueIds(s)
    ensures m == MinimalRepository.Update(s, entity, storeFault)
  {
    if !HasKey(s, entity.id) then MinimalRepository.Mutation(Failed, s)
    else match ModifyAndCommit(s, entity, storeFault)
      case Faulted => MinimalRepository.Mutation(Failed, s)
      case Committed(rows, after) =>
        MinimalRepository.Mutation(if rows > 0 then Success else Failed, after)
  }

  /** `DeleteAsync`: remove, commit, success iff rows were affected. */
  function Delete<T>(s: Store<T>, entity: Entity<T>, storeFault: bool): (m: MinimalRepository.Mutation<T>)
    requires UniqueIds(s)
    ensures m == MinimalRepository.Delete(s, entity, storeFault)
  {
    match RemoveAndCommit(s, entity, storeFault)
    case Faulted => MinimalRepository.Mutation(Failed, s)
    case Committed(rows, after) =>
      MinimalRepository.Mutation(if rows > 0 then Success else Failed, after)
  }

  /** `RetrieveAllAsync`: every stored row. */
  function RetrieveAll<T>(s: Store<T>): (r: seq<Entity<T>>)
    ensures r == MinimalRepository.RetrieveAll(s)
  {
    s
  }

  /** `RetrieveByIdAsync`: `int` and `string` keys are looked up, anything
      else is rejected. */
  function RetrieveById<T>(s: Store<T>, id: MinimalRepository.KeyArg): (r: Result<Option<Entity<T>>, MinimalRepository.ArgumentError>)
    ensures r == MinimalRepository.RetrieveById(s, id)
  {
    if id.IntArg? then Ok(Find(s, IntKey(id.n)))
    else if id.StrArg? then Ok(Find(s, StrKey(id.s)))
    else Err(MinimalRepository.UnsupportedKeyType)
  }
}

=== FILE: entities.dfy ===
/** Entities with a primary key, and the stored collection of one entity
    type. */
module Entities {
  import opened Wrappers
  import opened Common
  import Linq

  /** A primary-key value. The repositories are generic in the key type:
      integer and string keys are told apart because lookup by key accepts
      only those two; a key of any other type (a `Guid`, a `long`, ...) is
      `OtherKey`, identified by an opaque value. */
  datatype Key = IntKey(n: Int32) | StrKey(s: string) | OtherKey(value: nat)

  /** A persisted record: its primary key `id` and the rest of its fields. */
  datatype Entity<T> = Entity(id: Key, fields: T)

  /** The stored rows of one entity type, in store order. */
  type Store<T> = seq<Entity<T>>

  /** The store's primary-key constraint: no two rows share an id. */
  ghost predicate UniqueIds<T>(s: Store<T>)
  {
    forall i, j :: 0 <= i < j < |s| ==> s[i].id != s[j].id
  }

  /** Some stored row has primary key `k`. */
  predicate HasKey<T>(s: Store<T>, k: Key)
  {
    exists i :: 0 <= i < |s| && s[i].id == k
  }

  /** Lookup by primary key (`DbSet.FindAsync`): the row with key `k`, or
      none. */
  function Find<T>(s: Store<T>, k: Key): (r: Option<Entity<T>>)
    ensures r.Some? <==> HasKey(s, k)
    ensures r.Some? ==> r.value in s && r.value.id == k
  {
    Linq.FirstWhere(s, (e: Entity<T>) => e.id == k)
  }

  /** Under the key constraint, a stored row is exactly what lookup by its
      key returns. */
  lemma FindStored<T>(s: Store<T>, i: nat)
    requires UniqueIds(s)
    requires i < |s|
    ensures Find(s, s[i].id) == Some(s[i])
  {
  }
}

=== FILE: linq.dfy ===
/** The sequence operators the repository and the paginator are built from:
    LINQ's `Where`, `Count(predicate)`, `FirstOrDefault`, `Skip` and `Take`
    on an ordered, already materialised sequence. */
module Linq {
  import opened Wrappers

  /** `Where`: the elements satisfying `p`, in their original order. */
  function Where<T>(s: seq<T>, p: T -> bool): (r: seq<T>)
    ensures |r| <= |s|
    ensures forall i :: 0 <= i < |r| ==> p(r[i])
    ensures forall i :: 0 <= i < |r| ==> r[i] in s
    ensures forall i :: 0 <= i < |s| && p(s[i]) ==> s[i] in r
  {
    if |s| == 0 then []
    else if p(s[0]) then [s[0]] + Where(s[1..], p)
    else Where(s[1..], p)
  }

  /** `Where` distributes over concatenation: filtering keeps the relative
      order of the surviving elements. */
  lemma {:induction false} WhereAppend<T>(a: seq<T>, b: seq<T>, p: T -> bool)
    ensures Where(a + b, p) == Where(a, p) + Where(b, p)
  {
    if |a| == 0 {
      assert a + b == b;
    } else {
      assert (a + b)[1..] == a[1..] + b;
      WhereAppend(a[1..], b, p);
    }
  }

  /** Filtering with a predicate every element satisfies keeps everything. */
  lemma {:induction false} WhereAll<T>(s: seq<T>, p: T -> bool)
    requires forall i :: 0 <= i < |s| ==> p(s[i])
    ensures Where(s, p) == s
  {
    if |s| > 0 {
      assert forall i :: 0 <= i < |s[1..]| ==> p(s[1..][i]) by {
        forall i | 0 <= i < |s[1..]| ensures p(s[1..][i]) {
          assert s[1..][i] == s[i + 1];
        }
      }
      WhereAll(s[1..], p);
      assert s == [s[0]] + s[1..];
    }
  }

  /** `Count(predicate)`: the number of elements satisfying `p`. */
  function CountWhere<T>(s: seq<T>, p: T -> bool): (n: nat)
    ensures n <= |s|
    ensures n == 0 <==> forall i :: 0 <= i < |s| ==> !p(s[i])
  {
    if |s| == 0 then 0
    else (if p(s[0]) then 1 else 0) + CountWhere(s[1..], p)
  }

  /** Counting the matches is the same as measuring the filtered sequence. */
  lemma {:induction false} CountWhereIsLengthOfWhere<T>(s: seq<T>, p: T -> bool)
    ensures CountWhere(s, p) == |Where(s, p)|
  {
    if |s| > 0 {
      CountWhereIsLengthOfWhere(s[1..], p);
    }
  }

  /** The position of the first element satisfying `p`, if any. */
  function FirstIndex<T>(s: seq<T>, p: T -> bool): (r: Option<nat>)
    ensures r.Some? ==> r.value < |s| && p(s[r.value]) &&
                        forall j :: 0 <= j < r.value ==> !p(s[j])
    ensures r.None? ==> forall i :: 0 <= i < |s| ==> !p(s[i])
  {
    if |s| == 0 then None
    else if p(s[0]) then Some(0)
    else match FirstIndex(s[1..], p)
      case None => None
      case Some(i) => Some(i + 1)
  }

  /** `FirstOrDefault(predicate)`: the first element satisfying `p`, if any. */
  function FirstWhere<T>(s: seq<T>, p: T -> bool): (r: Option<T>)
    ensures r.None? <==> forall i :: 0 <= i < |s| ==> !p(s[i])
    ensures r.Some? ==> exists i :: 0 <= i < |s| && s[i] == r.value && p(s[i]) &&
                                    forall j :: 0 <= j < i ==> !p(s[j])
  {
    match FirstIndex(s, p)
    case None => None
    case Some(i) => Some(s[i])
  }

  /** The first match is the head of the filtered sequence. */
  lemma {:induction false} FirstWhereIsHeadOfWhere<T>(s: seq<T>, p: T -> bool)
    ensures FirstWhere(s, p) == if |Where(s, p)| == 0 then None else Some(Where(s, p)[0])
  {
    if |s| > 0 && !p(s[0]) {
      FirstWhereIsHeadOfWhere(s[1..], p);
      assert FirstWhere(s, p) == FirstWhere(s[1..], p);
    }
  }

  /** `Skip(n)`: drops the first `n` elements; a count of zero or less
      drops nothing, a count beyond the end leaves nothing. */
  function Skip<T>(s: seq<T>, n: int): (r: seq<T>)
    ensures n <= 0 ==> r == s
    ensures n >= |s| ==> r == []
    ensures 0 <= n <= |s| ==> r == s[n..]
    decreases |s|
  {
    if n <= 0 || |s| == 0 then s
    else Skip(s[1..], n - 1)
  }

  /** `Take(n)`: keeps at most the first `n` elements; a count of zero or
      less keeps nothing. */
  function Take<T>(s: seq<T>, n: int): (r: seq<T>)
    ensures |r| == if n <= 0 then 0 else if n < |s| then n else |s|
    ensures r == s[..|r|]
    decreases |s|
  {
    if n <= 0 || |s| == 0 then []
    else [s[0]] + Take(s[1..], n - 1)
  }

  /** The position of the first element of page `pageNumber` (1-based) when
      pages hold `pageSize` elements. */
  function PageOffset(pageNumber: int, pageSize: int): (offset: nat)
    requires pageNumber >= 1 && pageSize >= 1
  {
    (pageNumber - 1) * pageSize
  }

  /** `Skip(offset).Take(size)`: the window of at most `size` elements that
      starts at position `offset`. */
  function Window<T>(s: seq<T>, offset: nat, size: nat): (r: seq<T>)
    ensures |r| == if offset >= |s| then 0 else if size < |s| - offset then size else |s| - offset
    ensures forall i :: 0 <= i < |r| ==> r[i] == s[offset + i]
  {
    Take(Skip(s, offset), size)
  }
}

=== FILE: minimal_repository.dfy ===
/** The CRUD repository: save, update, delete, retrieve all and retrieve by
    key. Every mutating call reports an `OperationResult` instead of raising:
    success exactly when its commit affected at least one row, failure for
    zero rows or for any fault. */
module MinimalRepository {
  import opened Wrappers
  import opened Common
  import opened Entities
  import opened PersistenceStore

  /** The runtime type of the untyped `id` handed to `RetrieveById`: an
      `int`, a `string`, or anything else (a GUID, a decimal, a date, ...). */
  datatype KeyArg = IntArg(n: Int32) | StrArg(s: string) | Other

  /** The `ArgumentException` raised for a key of unsupported type. */
  datatype ArgumentError = UnsupportedKeyType

  /** The reported outcome of a mutating call and the store afterwards. */
  datatype Mutation<T> = Mutation(result: OperationResult, store: Store<T>)

  /** The primary key an argument denotes, or none for an unsupported type. */
  function AsKey(id: KeyArg): (k: Option<Key>)
    ensures k.None? <==> id.Other?
  {
    match id
    case IntArg(n) => Some(IntKey(n))
    case StrArg(x) => Some(StrKey(x))
    case Other => None
  }

  /** The argument a caller passes to look up key `k`. */
  function ArgOf(k: Key): (id: KeyArg)
    ensures id.Other? <==> k.OtherKey?
    ensures !k.OtherKey? ==> AsKey(id) == Some(k)
  {
    match k
    case IntKey(n) => IntArg(n)
    case StrKey(x) => StrArg(x)
    case OtherKey(_) => Other
  }

  /** Turns a commit into the reported outcome: a fault is caught and
      reported as failure with nothing persisted; otherwise the call
      succeeds exactly when the commit affected at least one row. */
  function Settle<T>(before: Store<T>, c: Commit<T>): (m: Mutation<T>)
    ensures m.result == Success <==> c.Committed? && c.affected > 0
    ensures c.Faulted? ==> m.store == before
    ensures c.Committed? ==> m.store == c.after
  {
    match c
    case Faulted => Mutation(Failed, before)
    case Committed(rows, after) => Mutation(FromAffected(rows), after)
  }

  /** `SaveAsync`: adds `entity` and commits. */
  function Save<T>(s: Store<T>, entity: Entity<T>, storeFault: bool): (m: Mutation<T>)
    requires UniqueIds(s)
    ensures UniqueIds(m.store)
    ensures m.result == Success <==> !storeFault && !HasKey(s, entity.id)
    ensures m.result == Success ==> m.store == s + [entity]
    ensures m.result == Failed ==> m.store == s
  {
    Settle(s, AddAndCommit(s, entity, storeFault))
  }

  /** `UpdateAsync`: looks the key up first; a missing key fails without any
      write, a present one is overwritten by `entity` and committed. */
  function Update<T>(s: Store<T>, entity: Entity<T>, storeFault: bool): (m: Mutation<T>)
    requires UniqueIds(s)
    ensures UniqueIds(m.store)
    ensures m.result == Success <==> !storeFault && HasKey(s, entity.id)
    ensures m.result == Failed ==> m.store == s
    ensures m.result == Success ==>
      |m.store| == |s| &&
      forall i :: 0 <= i < |s| ==> m.store[i] == if s[i].id == entity.id then entity else s[i]
  {
    match Find(s, entity.id)
    case None => Mutation(Failed, s)
    case Some(_) =>
      ReplaceUnique(s, entity);
      Settle(s, ModifyAndCommit(s, entity, storeFault))
  }

  /** `DeleteAsync`: removes the row keyed `entity.id` and commits. */
  function Delete<T>(s: Store<T>, entity: Entity<T>, storeFault: bool): (m: Mutation<T>)
    requires UniqueIds(s)
    ensures UniqueIds(m.store)
    ensures m.result == Success <==> !storeFault && HasKey(s, entity.id)
    ensures m.result == Failed ==> m.store == s
    ensures m.result == Success ==>
      && !HasKey(m.store, entity.id)
      && |m.store| == |s| - 1
      && (forall i :: 0 <= i < |m.store| ==> m.store[i] in s)
      && (forall i :: 0 <= i < |s| && s[i].id != entity.id ==> s[i] in m.store)
  {
    RemoveKeyUnique(s, entity.id);
    RemoveKeyLength(s, entity.id);
    Settle(s, RemoveAndCommit(s, entity, storeFault))
  }

  /** `RetrieveAllAsync`: every stored row, materialised in store order. */
  function RetrieveAll<T>(s: Store<T>): (r: seq<Entity<T>>)
    ensures |r| == |s|
    ensures forall i :: 0 <= i < |s| ==> r[i] == s[i]
    ensures forall i :: 0 <= i < |s| ==> s[i] in r
  {
    s
  }

  /** `RetrieveByIdAsync`: an `int` or `string` argument is looked up and may
      find nothing; an argument of any other type is rejected with an
      error, never reported as absent. */
  function RetrieveById<T>(s: Store<T>, id: KeyArg): (r: Result<Option<Entity<T>>, ArgumentError>)
    ensures r.Err? <==> id.Other?
    ensures r.Ok? ==> (r.value.Some? <==> HasKey(s, AsKey(id).value))
    ensures r.Ok? && r.value.Some? ==> r.value.value in s && r.value.value.id == AsKey(id).value
  {
    match id
    case IntArg(n) => Ok(Find(s, IntKey(n)))
    case StrArg(x) => Ok(Find(s, StrKey(x)))
    case Other => Err(UnsupportedKeyType)
  }

  /** Saving an entity whose key is new succeeds, and looking its key up
      afterwards returns exactly that entity; a key of a type other than
      `int` or `string` is stored but can never be looked up. */
  lemma SaveThenRetrieve<T>(s: Store<T>, entity: Entity<T>)
    requires UniqueIds(s)
    requires !HasKey(s, entity.id)
    ensures Save(s, entity, false).result == Success
    ensures RetrieveById(Save(s, entity, false).store, ArgOf(entity.id)) ==
      if entity.id.OtherKey? then Err(UnsupportedKeyType) else Ok(Some(entity))
  {
    var after := Save(s, entity, false).store;
    FindStored(after, |s|);
  }

  /** Updating a stored key succeeds, and looking the key up afterwards
      returns the incoming entity's fields, not the old ones. */
  lemma UpdateThenRetrieve<T>(s: Store<T>, entity: Entity<T>)
    requires UniqueIds(s)
    requires HasKey(s, entity.id)
    ensures Update(s, entity, false).result == Success
    ensures RetrieveById(Update(s, entity, false).store, ArgOf(entity.id)) ==
      if entity.id.OtherKey? then Err(UnsupportedKeyType) else Ok(Some(entity))
  {
    var i :| 0 <= i < |s| && s[i].id == entity.id;
    FindStored(Update(s, entity, false).store, i);
  }

  /** Deleting a stored key succeeds, and looking the key up afterwards
      finds nothing. */
  lemma DeleteThenRetrieve<T>(s: Store<T>, entity: Entity<T>)
    requires UniqueIds(s)
    requires HasKey(s, entity.id)
    ensures Delete(s, entity, false).result == Success
    ensures RetrieveById(Delete(s, entity, false).store, ArgOf(entity.id)) ==
      if entity.id.OtherKey? then Err(UnsupportedKeyType) else Ok(None)
  {
  }
}

=== FILE: paginator.dfy ===
/** The paginator: a read-only page view over an already materialised
    sequence, with the total count, the page's items and links to the
    neighbouring pages built from the request path. */
module Paginator {
  import opened Wrappers
  import opened Common
  import opened Decimal
  import Linq

  /** A constructed paginator. `next` and `previous` are `None` where the
      source leaves the link `null`. */
  datatype Page<T> = Page(
    count: nat,
    currentPage: int,
    next: Option<string>,
    previous: Option<string>,
    results: seq<T>)

  /** The query suffix of the next-page link: it carries no parameter name. */
  const NextQuery: string := "?="

  /** The query suffix of the previous-page link. */
  const PreviousQuery: string := "?page="

  /** The number of pages needed for `count` items, `pageSize` per page:
      the ceiling of `count / pageSize`. */
  function TotalPages(count: nat, pageSize: int): (t: nat)
    requires pageSize >= 1
    ensures t * pageSize >= count
    ensures count > 0 ==> (t - 1) * pageSize < count
    ensures count == 0 ==> t == 0
  {
    var t := (count + pageSize - 1) / pageSize;
    assert t * pageSize + (count + pageSize - 1) % pageSize == count + pageSize - 1;
    t
  }

  /** The link to the next page, present while pages remain after this one. */
  function NextUrl(path: string, pageNumber: int, totalPages: int): (u: Option<string>)
    requires pageNumber >= 1
    ensures u.Some? <==> pageNumber < totalPages
    ensures u.Some? ==> u.value == path + NextQuery + NatToString(pageNumber + 1)
  {
    if pageNumber < totalPages then Some(path + NextQuery + NatToString(pageNumber + 1))
    else None
  }

  /** The link to the previous page, present on every page after the first. */
  function PreviousUrl(path: string, pageNumber: int): (u: Option<string>)
    ensures u.Some? <==> pageNumber > 1
    ensures u.Some? ==> u.value == path + PreviousQuery + NatToString(pageNumber - 1)
  {
    if pageNumber > 1 then Some(path + PreviousQuery + NatToString(pageNumber - 1))
    else None
  }

  /** The items of page `pageNumber`: `Skip((pageNumber - 1) * pageSize)`
      then `Take(pageSize)`, the offset computed without overflow. */
  function PageResults<T>(data: seq<T>, pageNumber: int, pageSize: int): (r: seq<T>)
    requires pageNumber >= 1 && pageSize >= 1
    ensures |r| == Min(pageSize, Max(0, |data| - Linq.PageOffset(pageNumber, pageSize)))
    ensures forall i :: 0 <= i < |r| ==> r[i] == data[Linq.PageOffset(pageNumber, pageSize) + i]
  {
    Linq.Window(data, Linq.PageOffset(pageNumber, pageSize), pageSize)
  }

  /** Page `pageNumber` exists beyond the current one exactly when items
      remain after the current page. */
  lemma {:induction false} MorePagesIffMoreItems(count: nat, pageNumber: int, pageSize: int)
    requires pageNumber >= 1 && pageSize >= 1
    ensures pageNumber < TotalPages(count, pageSize) <==> pageNumber * pageSize < count
  {
    var t := TotalPages(count, pageSize);
    if pageNumber < t {
      assert pageNumber * pageSize <= (t - 1) * pageSize by {
        MultiplyMonotone(pageNumber, t - 1, pageSize);
      }
    }
    if pageNumber * pageSize < count && pageNumber >= t {
      MultiplyMonotone(t, pageNumber, pageSize);
      assert false;
    }
  }

  lemma MultiplyMonotone(a: int, b: int, k: nat)
    requires a <= b
    ensures a * k <= b * k
  {
  }

  /** The `Paginator` constructor over `data`, for page `pageNumber` of size
      `pageSize` and request path `path`. */
  function Paginate<T>(data: seq<T>, pageNumber: int, pageSize: int, path: string): (p: Page<T>)
    requires pageNumber >= 1 && pageSize >= 1
    ensures p.count == |data| && p.currentPage == pageNumber
    ensures p.next.Some? <==> pageNumber * pageSize < |data|
    ensures p.next.Some? ==> p.next.value == path + NextQuery + NatToString(pageNumber + 1)
    ensures p.previous.Some? <==> pageNumber > 1
    ensures p.previous.Some? ==> p.previous.value == path + PreviousQuery + NatToString(pageNumber - 1)
    ensures p.results == PageResults(data, pageNumber, pageSize)
  {
    var count := |data|;
    var totalPages := TotalPages(count, pageSize);
    MorePagesIffMoreItems(count, pageNumber, pageSize);
    Page(count, pageNumber,
         NextUrl(path, pageNumber, totalPages),
         PreviousUrl(path, pageNumber),
         PageResults(data, pageNumber, pageSize))
  }

  /** A page number past the last page yields no items. */
  lemma ResultsEmptyPastLastPage<T>(data: seq<T>, pageNumber: int, pageSize: int)
    requires pageNumber >= 1 && pageSize >= 1
    requires pageNumber > TotalPages(|data|, pageSize)
    ensures PageResults(data, pageNumber, pageSize) == []
  {
    var t := TotalPages(|data|, pageSize);
    MultiplyMonotone(t, pageNumber - 1, pageSize);
  }

  /** The next link leads to a page that has items, and, when the current
      page starts within the data, the previous link leads to a full page. */
  lemma LinksLeadToRealPages<T>(data: seq<T>, pageNumber: int, pageSize: int, path: string)
    requires pageNumber >= 1 && pageSize >= 1
    ensures Paginate(data, pageNumber, pageSize, path).next.Some? ==>
      |Paginate(data, pageNumber + 1, pageSize, path).results| > 0
    ensures Paginate(data, pageNumber, pageSize, path).previous.Some? && (pageNumber - 1) * pageSize <= |data| ==>
      |Paginate(data, pageNumber - 1, pageSize, path).results| == pageSize
  {
    assert (pageNumber + 1 - 1) * pageSize == pageNumber * pageSize;
    if pageNumber > 1 {
      assert (pageNumber - 1 - 1) * pageSize + pageSize == (pageNumber - 1) * pageSize;
    }
  }

  /** Links to different pages differ: a next link, or a previous link,
      determines the page it was built on. */
  lemma LinksDistinguishPages(path: string, a: int, b: int, totalPages: int)
    requires a >= 1 && b >= 1
    ensures var na, nb := NextUrl(path, a, totalPages), NextUrl(path, b, totalPages);
      na.Some? && nb.Some? && na.value == nb.value ==> a == b
    ensures var pa, pb := PreviousUrl(path, a), PreviousUrl(path, b);
      pa.Some? && pb.Some? && pa.value == pb.value ==> a == b
  {
    var na, nb := NextUrl(path, a, totalPages), NextUrl(path, b, totalPages);
    if na.Some? && nb.Some? && na.value == nb.value {
      assert na.value[|path| + |NextQuery|..] == NatToString(a + 1);
      assert nb.value[|path| + |NextQuery|..] == NatToString(b + 1);
      NatToStringInjective(a + 1, b + 1);
    }
    var pa, pb := PreviousUrl(path, a), PreviousUrl(path, b);
    if pa.Some? && pb.Some? && pa.value == pb.value {
      assert pa.value[|path| + |PreviousQuery|..] == NatToString(a - 1);
      assert pb.value[|path| + |PreviousQuery|..] == NatToString(b - 1);
      NatToStringInjective(a - 1, b - 1);
    }
  }

  /** The page number a link carries can be read back from it: the link is
      the path, the query suffix, then the decimal page number. */
  lemma LinksRoundTrip(path: string, pageNumber: int, totalPages: int)
    requires pageNumber >= 1
    ensures var u := NextUrl(path, pageNumber, totalPages);
      u.Some? ==>
        && u.value[..|path| + |NextQuery|] == path + NextQuery
        && IsDigits(u.value[|path| + |NextQuery|..])
        && ParseDigits(u.value[|path| + |NextQuery|..]) == pageNumber + 1
    ensures var u := PreviousUrl(path, pageNumber);
      u.Some? ==>
        && u.value[..|path| + |PreviousQuery|] == path + PreviousQuery
        && IsDigits(u.value[|path| + |PreviousQuery|..])
        && ParseDigits(u.value[|path| + |PreviousQuery|..]) == pageNumber - 1
  {
    var next := NextUrl(path, pageNumber, totalPages);
    if next.Some? {
      ParseNatToString(pageNumber + 1);
      assert next.value[|path| + |NextQuery|..] == NatToString(pageNumber + 1);
    }
    var previous := PreviousUrl(path, pageNumber);
    if previous.Some? {
      ParseNatToString(pageNumber - 1);
      assert previous.value[|path| + |PreviousQuery|..] == NatToString(pageNumber - 1);
    }
  }
}

=== FILE: paginator_int32.dfy ===
/** The paginator's page slice exactly as the source evaluates it: the
    offset `(pageNumber - 1) * pageSize` is C# `int` arithmetic, which wraps
    around on overflow, and LINQ's `Skip` treats a negative count as zero. */
module PaginatorInt32 {
  import opened Common
  import Linq
  import Paginator

  /** The slice computed with a wrapped 32-bit offset. */
  function ResultsAsWritten<T>(data: seq<T>, pageNumber: Int32, pageSize: Int32): (r: seq<T>)
    requires pageNumber >= 1 && pageSize >= 1
    ensures (pageNumber - 1) * pageSize <= Int32Max ==>
      r == Paginator.PageResults(data, pageNumber, pageSize)
  {
    Linq.Take(Linq.Skip(data, Wrap32((pageNumber - 1) * pageSize)), pageSize)
  }

  /** Ten items, page 65537 of size 32768: the offset 2^31 wraps to -2^31,
      nothing is skipped, and the page shows the first items although the
      page lies far past the end, where the corrected slice is empty. */
  lemma OverflowShowsFirstPage()
    ensures var data := seq(10, i => i);
      && ResultsAsWritten(data, 65537, 32768) == data
      && Paginator.PageResults(data, 65537, 32768) == []
  {
    var data := seq(10, i => i);
    assert Wrap32(65536 * 32768) == Int32Min;
    assert Linq.Skip(data, Int32Min) == data;
  }
}

=== FILE: repository.dfy ===
/** The extended repository: counting, existence, predicate queries and
    offset/limit paging. All of these are queries: they read the store and
    return no new one, so the store is unchanged by construction. */
module Repository {
  import opened Wrappers
  import opened Common
  import opened Entities
  import opened Linq
  import MinimalRepository

  /** `CountAsync()`: the number of stored rows. */
  function Count<T>(s: Store<T>): (n: nat)
    ensures n == |MinimalRepository.RetrieveAll(s)|
    ensures n == 0 <==> s == []
  {
    |s|
  }

  /** `FindAllAsync(matches)`: the matching rows, in store order. */
  function FindAll<T>(s: Store<T>, matches: Entity<T> -> bool): (r: seq<Entity<T>>)
    ensures |r| <= |s|
    ensures forall i :: 0 <= i < |r| ==> matches(r[i]) && r[i] in s
    ensures forall i :: 0 <= i < |s| && matches(s[i]) ==> s[i] in r
  {
    Where(s, matches)
  }

  /** `FindAllAsync` keeps store order: the matches in a store split in two
      are the matches of the first part followed by those of the second. */
  lemma FindAllKeepsOrder<T>(a: Store<T>, b: Store<T>, matches: Entity<T> -> bool)
    ensures FindAll(a + b, matches) == FindAll(a, matches) + FindAll(b, matches)
  {
    WhereAppend(a, b, matches);
  }

  /** `CountAsync(matches)`: the number of matching rows. It equals the
      size of `FindAllAsync(matches)`, and the store size when the
      predicate accepts every row. */
  function CountWhere<T>(s: Store<T>, matches: Entity<T> -> bool): (n: nat)
    ensures n == |FindAll(s, matches)|
    ensures (forall i :: 0 <= i < |s| ==> matches(s[i])) ==> n == Count(s)
  {
    CountWhereIsLengthOfWhere(s, matches);
    CountAllMatching(s, matches);
    Linq.CountWhere(s, matches)
  }

  /** A predicate accepting every row counts every row. */
  lemma {:induction false} CountAllMatching<T>(s: Store<T>, matches: Entity<T> -> bool)
    ensures (forall i :: 0 <= i < |s| ==> matches(s[i])) ==> Linq.CountWhere(s, matches) == |s|
  {
    if |s| > 0 && forall i :: 0 <= i < |s| ==> matches(s[i]) {
      assert forall i :: 0 <= i < |s[1..]| ==> matches(s[1..][i]) by {
        forall i | 0 <= i < |s[1..]| ensures matches(s[1..][i]) {
          assert s[1..][i] == s[i + 1];
        }
      }
      CountAllMatching(s[1..], matches);
    }
  }

  /** `ExistsAsync(id)`: some stored row has key `id`. */
  function Exists<T>(s: Store<T>, id: Key): (b: bool)
    ensures b <==> exists i :: 0 <= i < |s| && s[i].id == id
  {
    Find(s, id).Some?
  }

  /** Existence agrees with retrieval for `int` and `string` keys: such a
      key exists exactly when `RetrieveByIdAsync` with that key finds a row.
      A key of any other type may exist, but retrieval always rejects it. */
  lemma ExistsIffRetrievable<T>(s: Store<T>, id: Key)
    ensures !id.OtherKey? ==> (Exists(s, id) <==>
      MinimalRepository.RetrieveById(s, MinimalRepository.ArgOf(id)).Ok? &&
      MinimalRepository.RetrieveById(s, MinimalRepository.ArgOf(id)).value.Some?)
    ensures id.OtherKey? ==>
      MinimalRepository.RetrieveById(s, MinimalRepository.ArgOf(id)) == Err(MinimalRepository.UnsupportedKeyType)
  {
  }

  /** `FindSingleAsync(matches)`: the first matching row in store order, or
      none; several matches are not an error. */
  function FindSingle<T>(s: Store<T>, matches: Entity<T> -> bool): (r: Option<Entity<T>>)
    ensures r == if |FindAll(s, matches)| == 0 then None else Some(FindAll(s, matches)[0])
    ensures r.None? <==> forall i :: 0 <= i < |s| ==> !matches(s[i])
    ensures r.Some? ==> exists i :: 0 <= i < |s| && s[i] == r.value && matches(s[i]) &&
                                    forall j :: 0 <= j < i ==> !matches(s[j])
  {
    FirstWhereIsHeadOfWhere(s, matches);
    FirstWhere(s, matches)
  }

  /** `PagedAsync(pageNumber, pageSize)`: skip the earlier pages, take one
      page. The result is the contiguous slice from the page's first
      position, cut short at the end of the store. */
  function Paged<T>(s: Store<T>, pageNumber: int, pageSize: int): (r: seq<Entity<T>>)
    requires pageNumber >= 1 && pageSize >= 1
    ensures r == s[Min(PageOffset(pageNumber, pageSize), |s|)..Min(PageOffset(pageNumber, pageSize) + pageSize, |s|)]
    ensures |r| <= pageSize
  {
    var r := Window(s, PageOffset(pageNumber, pageSize), pageSize);
    assert r == s[Min(PageOffset(pageNumber, pageSize), |s|)..Min(PageOffset(pageNumber, pageSize) + pageSize, |s|)];
    r
  }

  /** `PagedAsync(matches, pageNumber, pageSize)`: filter first, then page
      the matches. */
  function PagedWhere<T>(s: Store<T>, matches: Entity<T> -> bool, pageNumber: int, pageSize: int): (r: seq<Entity<T>>)
    requires pageNumber >= 1 && pageSize >= 1
    ensures r == Paged(FindAll(s, matches), pageNumber, pageSize)
    ensures forall i :: 0 <= i < |r| ==> matches(r[i]) && r[i] in s
  {
    Window(Where(s, matches), PageOffset(pageNumber, pageSize), pageSize)
  }

  /** With a predicate every stored row satisfies, filtered paging is plain
      paging. */
  lemma PagedWhereAll<T>(s: Store<T>, matches: Entity<T> -> bool, pageNumber: int, pageSize: int)
    requires pageNumber >= 1 && pageSize >= 1
    requires forall i :: 0 <= i < |s| ==> matches(s[i])
    ensures PagedWhere(s, matches, pageNumber, pageSize) == Paged(s, pageNumber, pageSize)
  {
    WhereAll(s, matches);
  }

  /** Consecutive pages are contiguous: page `n` followed by page `n + 1` is
      the slice from the start of page `n` to the end of page `n + 1`, with
      no row skipped or repeated between them. */
  lemma AdjacentPagesContiguous<T>(s: Store<T>, n: int, pageSize: int)
    requires n >= 1 && pageSize >= 1
    ensures Paged(s, n, pageSize) + Paged(s, n + 1, pageSize) ==
      s[Min(PageOffset(n, pageSize), |s|)..Min(PageOffset(n + 2, pageSize), |s|)]
  {
    var lo, mid := PagedSlice(s, n, pageSize);
    var mid', hi := PagedSlice(s, n + 1, pageSize);
    assert s[lo..mid] + s[mid..hi] == s[lo..hi];
  }

  /** Page `n` is the slice between the start of page `n` and the start of
      page `n + 1`, both cut at the end of the store. */
  lemma PagedSlice<T>(s: Store<T>, n: int, pageSize: int) returns (lo: nat, hi: nat)
    requires n >= 1 && pageSize >= 1
    ensures lo == Min(PageOffset(n, pageSize), |s|)
    ensures hi == Min(PageOffset(n + 1, pageSize), |s|)
    ensures lo <= hi <= |s|
    ensures Paged(s, n, pageSize) == s[lo..hi]
  {
    assert PageOffset(n, pageSize) + pageSize == PageOffset(n + 1, pageSize);
    lo := Min(PageOffset(n, pageSize), |s|);
    hi := Min(PageOffset(n + 1, pageSize), |s|);
  }

  /** A page starting at or past the end of the store is empty. */
  lemma PagedPastEnd<T>(s: Store<T>, pageNumber: int, pageSize: int)
    requires pageNumber >= 1 && pageSize >= 1
    requires PageOffset(pageNumber, pageSize) >= |s|
    ensures Paged(s, pageNumber, pageSize) == []
  {
  }

  /** Every mutation moves the count the way its outcome says: a successful
      save adds one row, a successful delete removes one, an update keeps
      the count, and a failed call keeps it too. */
  lemma MutationsAdjustCount<T>(s: Store<T>, entity: Entity<T>, storeFault: bool)
    requires UniqueIds(s)
    ensures var m := MinimalRepository.Save(s, entity, storeFault);
      Count(m.store) == if m.result == Success then Count(s) + 1 else Count(s)
    ensures var m := MinimalRepository.Delete(s, entity, storeFault);
      Count(m.store) == if m.result == Success then Count(s) - 1 else Count(s)
    ensures Count(MinimalRepository.Update(s, entity, storeFault).store) == Count(s)
  {
  }
}

=== FILE: scenarios.dfy ===
/** Concrete scenarios from the repository's own test suites, stated about
    the model. */
module Scenarios {
  import opened Wrappers
  import opened Entities
  import MinimalRepository
  import Repository
  import Paginator

  /** Ten rows with keys 1 to 10. */
  function TenRows(): (s: Store<int>)
    ensures |s| == 10 && UniqueIds(s)
    ensures forall i :: 0 <= i < 10 ==> s[i] == Entity(IntKey(i + 1), 25)
  {
    seq(10, i requires 0 <= i < 10 => Entity(IntKey(i + 1), 25))
  }

  /** Page 2 of size 3 over ten rows is rows 3, 4 and 5 (0-based), with or
      without a predicate every row satisfies. */
  lemma PagedSecondPageOfThree()
    ensures Repository.Paged(TenRows(), 2, 3) == TenRows()[3..6]
    ensures Repository.PagedWhere(TenRows(), (e: Entity<int>) => e.fields == 25, 2, 3) == TenRows()[3..6]
  {
    Repository.PagedWhereAll(TenRows(), (e: Entity<int>) => e.fields == 25, 2, 3);
  }

  /** A hundred items, page 1 of size 10: count 100, ten results, a next
      link and no previous link. */
  lemma HundredItemsFirstPage(path: string)
    ensures var p := Paginator.Paginate(seq(100, i => i), 1, 10, path);
      && p.count == 100 && p.currentPage == 1
      && |p.results| == 10
      && p.previous.None? && p.next.Some?
      && p.next.value == path + "?=2"
  {
  }

  /** An argument of unsupported type is rejected whatever the store holds;
      an integer key that is not stored is reported absent. */
  lemma RetrieveByIdRejectsOtherTypes<T>(s: Store<T>)
    ensures MinimalRepository.RetrieveById(s, MinimalRepository.Other) == Err(MinimalRepository.UnsupportedKeyType)
    ensures MinimalRepository.RetrieveById(TenRows(), MinimalRepository.IntArg(999999)) == Ok(None)
  {
  }
}

=== FILE: store.dfy ===
/** The persistence store the repositories delegate to (an Entity Framework
    `DbSet` plus `SaveChangesAsync`), abstracted as pure transitions of an
    immutable store. Each primitive stages one change and commits it. */
module PersistenceStore {
  import opened Wrappers
  import opened Entities
  import Linq

  /** What a commit reports: the number of affected rows and the store
      afterwards, or a fault (an exception raised by the add or the commit). */
  datatype Commit<T> = Committed(affected: nat, after: Store<T>) | Faulted

  /** The store with the row keyed `e.id` replaced by `e`, in place. */
  function Replace<T>(s: Store<T>, e: Entity<T>): (r: Store<T>)
    ensures |r| == |s|
    ensures forall i :: 0 <= i < |s| ==> r[i] == if s[i].id == e.id then e else s[i]
  {
    if |s| == 0 then []
    else [if s[0].id == e.id then e else s[0]] + Replace(s[1..], e)
  }

  /** The store without the row keyed `k`, the others in their order. */
  function RemoveKey<T>(s: Store<T>, k: Key): (r: Store<T>)
    ensures !HasKey(r, k)
    ensures forall i :: 0 <= i < |r| ==> r[i] in s
    ensures forall i :: 0 <= i < |s| && s[i].id != k ==> s[i] in r
  {
    Linq.Where(s, (e: Entity<T>) => e.id != k)
  }

  /** Removing a present key from a store with unique keys removes exactly
      one row. */
  lemma {:induction false} RemoveKeyLength<T>(s: Store<T>, k: Key)
    requires UniqueIds(s)
    ensures |RemoveKey(s, k)| == if HasKey(s, k) then |s| - 1 else |s|
  {
    if |s| > 0 {
      assert UniqueIds(s[1..]);
      RemoveKeyLength(s[1..], k);
      if s[0].id == k {
        assert !HasKey(s[1..], k);
      } else {
        assert HasKey(s, k) <==> HasKey(s[1..], k) by {
          if HasKey(s, k) {
            var i :| 0 <= i < |s| && s[i].id == k;
            assert s[1..][i - 1].id == k;
          }
        }
      }
    }
  }

  /** Removing a key keeps the remaining keys unique. */
  lemma RemoveKeyUnique<T>(s: Store<T>, k: Key)
    requires UniqueIds(s)
    ensures UniqueIds(RemoveKey(s, k))
  {
    var r := RemoveKey(s, k);
    forall i, j | 0 <= i < j < |r|
      ensures r[i].id != r[j].id
    {
      RemoveKeyPrefix(s, k, i, j);
    }
  }

  /** Two distinct rows of a filtered store come from two distinct rows of
      the store, in the same order. */
  lemma {:induction false} RemoveKeyPrefix<T>(s: Store<T>, k: Key, i: nat, j: nat)
    requires UniqueIds(s)
    requires i < j < |RemoveKey(s, k)|
    ensures RemoveKey(s, k)[i].id != RemoveKey(s, k)[j].id
  {
    var r := RemoveKey(s, k);
    assert UniqueIds(s[1..]);
    if s[0].id != k {
      assert r == [s[0]] + RemoveKey(s[1..], k);
      if i == 0 {
        assert r[j] == RemoveKey(s[1..], k)[j - 1];
        var n :| 0 <= n < |s[1..]| && s[1..][n] == r[j];
        assert s[n + 1] == r[j];
      } else {
        RemoveKeyPrefix(s[1..], k, i - 1, j - 1);
      }
    } else {
      assert r == RemoveKey(s[1..], k);
      RemoveKeyPrefix(s[1..], k, i, j);
    }
  }

  /** Replacing a row by one with the same key keeps keys unique. */
  lemma ReplaceUnique<T>(s: Store<T>, e: Entity<T>)
    requires UniqueIds(s)
    ensures UniqueIds(Replace(s, e))
  {
  }

  /** `Add` then commit. A row whose key is already stored violates the
      primary-key constraint, and a faulty store rejects every change;
      both surface as exceptions. */
  function AddAndCommit<T>(s: Store<T>, e: Entity<T>, storeFault: bool): (c: Commit<T>)
    ensures c.Committed? <==> !storeFault && !HasKey(s, e.id)
    ensures c.Committed? ==> c.affected == 1 && c.after == s + [e]
    ensures c.Committed? ==> |c.after| == |s| + 1 && Find(c.after, e.id) == Some(e)
    ensures c.Committed? && UniqueIds(s) ==> UniqueIds(c.after)
  {
    if storeFault || HasKey(s, e.id) then Faulted
    else
      assert Find(s + [e], e.id) == Some(e) by { NewRowFound(s, e); }
      Committed(1, s + [e])
  }

  /** Appending a row whose key is new makes it the row found by that key. */
  lemma NewRowFound<T>(s: Store<T>, e: Entity<T>)
    requires !HasKey(s, e.id)
    ensures Find(s + [e], e.id) == Some(e)
  {
    var t := s + [e];
    assert t[|s|].id == e.id;
    var r := Find(t, e.id);
    var i :| 0 <= i < |t| && t[i] == r.value;
    if i < |s| {
      assert s[i].id == e.id;
    }
  }

  /** Mark `e` modified then commit: an UPDATE of the row keyed `e.id`. */
  function ModifyAndCommit<T>(s: Store<T>, e: Entity<T>, storeFault: bool): (c: Commit<T>)
    requires HasKey(s, e.id)
    ensures c.Committed? <==> !storeFault
    ensures c.Committed? ==> c.affected == 1 && c.after == Replace(s, e)
    ensures c.Committed? ==> |c.after| == |s| && Find(c.after, e.id) == Some(e)
    ensures c.Committed? && UniqueIds(s) ==> UniqueIds(c.after)
  {
    if storeFault then Faulted
    else
      assert Find(Replace(s, e), e.id) == Some(e) by { ReplacedRowFound(s, e); }
      Committed(1, Replace(s, e))
  }

  /** After replacing the row keyed `e.id`, that key finds `e`. */
  lemma ReplacedRowFound<T>(s: Store<T>, e: Entity<T>)
    requires HasKey(s, e.id)
    ensures Find(Replace(s, e), e.id) == Some(e)
  {
    var t := Replace(s, e);
    var i :| 0 <= i < |s| && s[i].id == e.id;
    assert HasKey(t, e.id) by { assert t[i].id == e.id; }
    ReplacedRowsAreEntity(s, e, Find(t, e.id).value);
  }

  /** Every row of the replaced store that carries `e.id` is `e` itself. */
  lemma ReplacedRowsAreEntity<T>(s: Store<T>, e: Entity<T>, x: Entity<T>)
    requires x in Replace(s, e) && x.id == e.id
    ensures x == e
  {
    var t := Replace(s, e);
    var j :| 0 <= j < |t| && t[j] == x;
  }

  /** `Remove` then commit: a DELETE of the row keyed `e.id`. A DELETE that
      matches no row is reported by the store as a concurrency fault. */
  function RemoveAndCommit<T>(s: Store<T>, e: Entity<T>, storeFault: bool): (c: Commit<T>)
    ensures c.Committed? <==> !storeFault && HasKey(s, e.id)
    ensures c.Committed? ==> c.affected == 1 && c.after == RemoveKey(s, e.id)
    ensures c.Committed? ==> Find(c.after, e.id) == None
    ensures c.Committed? && UniqueIds(s) ==> UniqueIds(c.after) && |c.after| == |s| - 1
  {
    if storeFault || !HasKey(s, e.id) then Faulted
    else
      assert UniqueIds(s) ==> UniqueIds(RemoveKey(s, e.id)) && |RemoveKey(s, e.id)| == |s| - 1 by {
        if UniqueIds(s) {
          RemoveKeyLength(s, e.id);
          RemoveKeyUnique(s, e.id);
        }
      }
      Committed(1, RemoveKey(s, e.id))
  }
}

=== FILE: wrappers.dfy ===
/** Optional values and value-or-error results, used in place of the
    source's `null` returns and thrown `ArgumentException`s. */
module Wrappers {

  /** A value that may be absent (the source returns `null`). */
  datatype Option<+T> = None | Some(value: T)

  /** A value, or the error the source would have thrown instead. */
  datatype Result<+R, +E> = Ok(value: R) | Err(error: E)
}
